=== FILE: README.md ===
# Crime-aware walking routes: a Dafny model of the `/directions` handler

The service answers `/directions` requests. It takes an origin, a destination,
a travel mode, a departure time and an optional `till` window of whole hours.
For each hour offset from 0 up to `till`, it asks a directions service for
alternative routes leaving at `departure + offset`. For each route it gathers
the walking steps, adds up their distances and decodes their polylines into
points. It then sends one Elasticsearch query that matches every crime
location within the configured proximity of any of those points. Each route
is reported with its overview polyline, its departure offset in seconds, the
crime locations found, and a crime rate. The rate is the number of hits
divided by the walking distance.

The model is split into five modules, plus a small `Wrappers` module for
`Option` and `Result`:

- `Directions` (`directions.dfy`) covers the route shape (routes, legs and
  steps). It has the walking-step filter, the total walking distance and the
  decoded walking points. `ExtractWalking` is the nested loop of the handler,
  proved equal to the filter-based definition. Both the distance and the
  point list are also proved equal to reference definitions that visit
  every step and mask out the non-walking ones.
- `Query` (`query.dfy`) covers `get_bounding_box` and `make_query`: the
  fixed envelope and one `geo_distance` clause per point, in order. It also
  has the inverse reading of a query back into its points.
- `Window` (`window.dfy`) covers how the `till` argument is validated. That
  includes the ASCII core of Python's `int()` on a string. That covers
  surrounding whitespace, a sign, and single underscores between digits.
  The whitespace is only what `int()` skips: tab, line feed, vertical tab,
  form feed, carriage return and space. The separators 0x1C to 0x1F are not
  skipped, even though `str.isspace` is true of them. It also has the
  overflow range of `timedelta(hours=...)` and the `.seconds` field.
- `Scoring` (`scoring.dfy`) covers the crime rate, the route record and the
  handler itself. The handler is a pure function `Serve` together with
  loop-based methods proved equal to it. The two external services and the
  polyline decoder are fields of an environment value `Env`. Each request
  records the calls it makes as a trace.
- `HandlerProperties` (`properties.dfy`) covers what a whole request does.
  It fixes which records come back in which order, when the request fails,
  and at which departure times the directions service is called.

A few things the handler does might be surprising. The model keeps each of
them as written:

- A route with walking distance 0 makes the division raise
  `ZeroDivisionError`. That covers a route with no walking step, or one whose
  walking steps all have distance 0. The error aborts the whole request with
  a server error. The route is not skipped, and the routes already scored
  are not returned. This is `ServerError(ZeroWalkingDistance)`.
- A route with no walking step is still searched first, with a query that
  has no `should` clause.
- `till` is only checked by `till < 24`. So a missing argument, `0`, and
  negative values are all accepted. A negative value makes no service call
  at all. It gives an empty route list, unless it is so large in magnitude
  (below -23999999976) that `timedelta(hours=till)` raises `OverflowError`,
  which is a server error (`ServerError(DeltaOverflow)`). The error text
  says "between 1 and 24", but that is not what the code checks.
- Each decoded point `x` becomes a clause with `lat = x[1]` and `lon = x[0]`.
  The model keeps this index order, with a point written as `Point(c0, c1)`.
- The code has no result pagination, no weighting of crimes by time or
  severity, and no skipping of routes that cannot be scored.

## Model

| member | source | states |
|---|---|---|
| Directions.WalkingStepsMembers | nyucrime.py:111-113 | the filter keeps exactly the steps whose travel mode is `"WALKING"`, each as many times as it occurs, and none are added |
| Directions.WalkingStepsCounts | nyucrime.py:111-113 | as multisets, the kept steps are the walking steps of the input with their multiplicities, and no other step; this is the inductive proof of the multiplicity clause that `WalkingStepsMembers` also carries |
| Directions.WalkingStepsAppend | nyucrime.py:111-113 | filtering distributes over concatenation, so kept steps keep their relative order |
| Directions.WalkLeg | nyucrime.py:112-115 | one leg's inner loop adds that leg's walking distances to the running total and appends its decoded walking points, in step order |
| Directions.ExtractWalking | nyucrime.py:109-115 | the nested leg/step loop, started from `0` and `[]`, yields the total distance and the concatenated points of the route's walking steps, in leg-then-step order |
| Directions.WalkingDistanceIsMasked | nyucrime.py:110-114 | summing only the walking steps equals summing every step with non-walking distances counted as 0 |
| Directions.WalkingPointsAreMasked | nyucrime.py:111-115 | the collected points equal, in order, the concatenation over all steps of each step's decoded polyline if it walks and nothing otherwise |
| Directions.WalkingPointCount | nyucrime.py:111-115 | there are as many points as the decoded polylines of the walking steps hold together, and none come from other steps |
| Directions.WalkingPointSource | nyucrime.py:111-115 | every collected point comes from decoding the polyline of some walking step |
| Directions.RouteWalkingSegments | nyucrime.py:108-115 | at route level, the distance and the point list equal their masked reference definitions, and every point comes from a walking step of one of the route's legs |
| Query.BoundingBox | nyucrime.py:42-51 | the clause carries the configured proximity as its distance and the given `lat` and `lon` as its centre, each in its own role |
| Query.Clauses | nyucrime.py:62 | one clause per point, in order; clause `i` has the configured distance, `lat` is the point's second coordinate and `lon` is its first |
| Query.MakeQuery | nyucrime.py:54-66 | the query asks for 10000 hits, has a `match_all` must clause and `minimum_should_match` 1, and has one proximity clause per point |
| Query.QueryRoundTrip | nyucrime.py:42-66 | reading the points back out of a built query returns the original points, and the built query has the proximity shape |
| Query.QueryOfQueryPoints | nyucrime.py:54-66 | any query of the proximity shape is the query built from its own points, so the shape exactly describes the queries the handler can send |
| Query.MakeQueryInjective | nyucrime.py:62 | different point sequences give different queries |
| Window.ParseInt | nyucrime.py:83 | `int()` accepts only text that holds at least one digit, starts with whitespace, a sign or a digit, and ends with whitespace or a digit (the value it returns is stated by `PaddedSignedDecimal`) |
| Window.PaddedSignedDecimal | nyucrime.py:83 | `int()` accepts whitespace, an optional `+` or `-`, any number of leading zeros, the decimal digits of `n` and whitespace, and returns `n` or `-n` according to the sign |
| Window.ParseFormatRoundTrip | nyucrime.py:83 | `int()` parses the decimal text of every integer back to that integer |
| Window.ValidateTill | nyucrime.py:82-88 | an accepted window is below 24 hours; every rejection is status 400 with the fixed message |
| Window.TillAcceptsBelow24 | nyucrime.py:82-86 | the decimal text of `n` is accepted if and only if `n < 24`, and it is then accepted as `n` |
| Window.TillRejectsDigitless | nyucrime.py:82-86 | ASCII text without a digit is rejected with status 400 |
| Window.TillRejects24 | nyucrime.py:84-86 | `"24"`, the first value the bound excludes, is rejected by the `till < 24` assertion with status 400 |
| Window.TillRejectsAbc | nyucrime.py:83-86 | non-numeric text such as `"abc"` makes `int()` raise, and the request is rejected with status 400 |
| Window.TillAcceptsNonPositive | nyucrime.py:83-86 | a missing argument means 0; `"0"` and `"-5"` are accepted, since no lower bound is checked |
| Window.TillAcceptsPadded | nyucrime.py:83 | surrounding whitespace and digit-group underscores are accepted as `int()` accepts them |
| Window.TillRejectsSeparator | nyucrime.py:83-86 | `"\x1c5"` is rejected with status 400, because `int()` does not skip the 0x1C separator |
| Window.TillPaddedDecimal | nyucrime.py:82-86 | a padded, optionally signed, possibly zero-led decimal `till` is accepted exactly when its value is below 24, and is then that value; otherwise the answer is the 400 |
| Window.TillAcceptsPlus | nyucrime.py:83 | `"+5"` is accepted as 5, because `int()` allows an explicit plus sign |
| Window.TillAcceptsLeadingZero | nyucrime.py:83 | `"05"` is accepted as 5, because base-10 `int()` allows leading zeros |
| Window.TillAcceptsTabNewline | nyucrime.py:83 | `"\t5\n"` is accepted as 5, because `int()` skips the tab and the line feed |
| Window.HoursDelta | nyucrime.py:88 | `timedelta(hours=h)` is `h*3600` seconds, and it raises exactly when `h` is outside the ±999999999-day range in hours |
| Window.SecondsField | nyucrime.py:121 | `.seconds` lies in `[0, 86400)` and equals the total for offsets within one day |
| Scoring.CrimeRate | nyucrime.py:118 | the rate is zero exactly when there are no hits, and it is never negative for a positive distance |
| Scoring.CrimeRateSpreadsHits | nyucrime.py:118 | rate × distance equals the hit count; the rate is non-negative for positive distance, and it is zero exactly when there are no hits |
| Scoring.Locations | nyucrime.py:123 | the crime locations are the hits' locations, one per hit, in hit order |
| Scoring.MakeRecord | nyucrime.py:119-124 | the record carries the route's overview polyline, the offset, the hits' locations and their count divided by the distance |
| Scoring.ScoreAlternatives | nyucrime.py:108-124 | the per-route loop produces what `ScoreRoutes` specifies: one search per route and one record per route, stopping at the first zero-distance route |
| Scoring.ScoreOffsets | nyucrime.py:100-125 | the hourly loop produces what `ScoreWindow` specifies: for each offset, a directions call followed by that offset's route scoring |
| Scoring.Serve | nyucrime.py:74-126 | a 400 answer comes exactly from an invalid `till`, with the fixed message and no service call; a `timedelta` overflow makes no call either; an OK answer echoes departure, mode, origin and destination |
| Scoring.GetRoutes | nyucrime.py:74-126 | the handler computes `Serve`; an invalid `till` gives 400 with the fixed message and makes no service call |
| HandlerProperties.ScoreRoutesVisits | nyucrime.py:108-124 | scoring one offset's routes fails if and only if some route has walking distance 0; otherwise there is exactly one record per route, in order, each built from that route's own search |
| HandlerProperties.ScoreWindowVisits | nyucrime.py:100-125 | scoring the window fails if and only if some visited route is unscorable; otherwise the records correspond one-to-one, in order, to the visited (offset, route) pairs |
| HandlerProperties.RecordContents | nyucrime.py:116-124 | each record has the route's polyline and offset, and the locations of the hits for that route's own query; rate × walking distance = hit count |
| HandlerProperties.RouteWithoutWalkingFails | nyucrime.py:109-118 | a route without walking steps still sends a query with no proximity clause, then fails the request |
| HandlerProperties.ServeRecords | nyucrime.py:88-126 | for a valid window, the answer is OK if and only if every visited route is scorable, and otherwise it is a zero-distance server error; an OK answer echoes the request fields and lists one matching record per visit |
| HandlerProperties.VisitsOffsetMajor | nyucrime.py:100-125 | visits are ordered by non-decreasing departure offset, and every offset is a whole hour within the window |
| HandlerProperties.WindowVisitsOffsetMajor | nyucrime.py:100-125 | for a window of `h < 24` hours, records are grouped by offset in increasing order, with offsets in `{0, 3600, …, h*3600}` |
| HandlerProperties.WindowFollowsSchedule | nyucrime.py:100-107 | the directions calls follow the hourly schedule: always a prefix of it, and all of it when nothing failed |
| HandlerProperties.ScheduleIsHourly | nyucrime.py:100-106 | the schedule's `k`-th departure time is `departure + k*3600` |
| HandlerProperties.DirectionsAskedHourly | nyucrime.py:82-107 | for a valid request, the directions service is asked at `departure`, `departure+3600`, …: a prefix of those `till+1` times, and all of them when the answer is OK |
| HandlerProperties.NegativeWindowIsEmpty | nyucrime.py:83-101 | a negative `till` makes no service call and answers with no routes; it gives a server error only when `timedelta` overflows |

## Left out

- The Flask application, the `/` route, JSON serialisation and the
  configuration loading are not modelled. The configured proximity is a
  string field of `Env`.
- `get_es` and `get_gmaps` are not modelled. That covers client
  construction, caching on `g`, and the AWS request signing. The directions
  service and the search service are functions in `Env`. Directions depend
  only on the departure time, because origin, destination, mode and
  `alternatives=True` are fixed within one request. A search returns
  whatever hits the environment gives, and the model does not assume the
  10000-hit cap holds.
- Every exception raised by a collaborator is left out, together with the
  500 it causes. `Env.directions`, `Env.search` and `Env.decode` are total
  functions that always answer. This leaves out googlemaps `ApiError`, for
  example for an unknown address, and Elasticsearch request or transport
  errors, for example a `should` list over the index's clause limit. It
  also leaves out `polyline.decode` failing on a malformed string, and a
  `KeyError` for a field missing from a response (nyucrime.py:111-123). The
  only exceptions modelled are the handler's own `ZeroDivisionError` and
  `OverflowError`.
- `polyline.decode` is an uninterpreted `Decoder` function in `Env`.
- Floating-point arithmetic is left out. Distances are exact integers,
  because Google returns integer metres, and the rate is an exact `real`
  quotient. Rounding of the float sum and the float division is not
  modelled.
- A `departure_time` argument arrives as a string. Adding the integer offset
  to it would raise `TypeError`, which the model does not cover:
  `Request.departure` is always an integer, as the default `int(time())`
  is. The clock itself is left out, so a missing departure must be given to
  the model explicitly.
- Window.ParseInt: models `int()` on ASCII input only. Unicode digits and
  whitespace, and Python's limit on the length of integer strings, are not
  modelled.
- Window.ParseInt: the value is stated in general only for text without
  underscores (`PaddedSignedDecimal`); text with digit-group underscores is
  covered by the worked case `TillAcceptsPadded` only.
- Window.ParseInt: assumes Python 3.6 or later, where `int()` accepts
  single underscores between digits. On Python 2 or 3.5 `"2_3"` is rejected
  with the 400, so `TillAcceptsPadded` holds only for 3.6 and later.
- Window.ValidateTill: assumes assertions are enabled. The bound is an
  `assert` (nyucrime.py:84). Under `python -O` it is removed and every
  integer `till` is accepted.
- `time_offset += timedelta(hours=1)` cannot overflow once `till < 24`, so
  that addition is modelled as plain integer addition.

=== FILE: directions.dfy ===
/**
 * The part of a routing-provider answer that `get_routes` reads, and the
 * walking-segment extraction it performs on each route alternative: only
 * steps whose travel mode is exactly "WALKING" contribute, their distances
 * are summed and their decoded polylines concatenated, legs first, then steps.
 */
module Directions {

  /** One decoded polyline vertex: the two components of the tuple the
      decoder yields, kept in the decoder's order (`c0` is `x[0]`, `c1` is `x[1]`). */
  datatype Point = Point(c0: real, c1: real)

  /** A step of a leg: its travel mode tag, `distance.value` in metres and
      the encoded `polyline.points` string. */
  datatype Step = Step(travelMode: string, distance: int, polyline: string)

  datatype Leg = Leg(steps: seq<Step>)

  /** A route alternative: its legs and the pass-through overview polyline. */
  datatype Route = Route(legs: seq<Leg>, overviewPolyline: string)

  /** The third-party polyline decoder, whose code is not part of this model. */
  type Decoder = string -> seq<Point>

  const WalkingMode: string := "WALKING"

  predicate IsWalking(s: Step) {
    s.travelMode == WalkingMode
  }

  /** Every step of every leg, legs first, then steps, in order. */
  function Steps(legs: seq<Leg>): seq<Step>
  {
    if |legs| == 0 then [] else legs[0].steps + Steps(legs[1..])
  }

  /** The walking steps of `steps`, in their original order. */
  function WalkingSteps(steps: seq<Step>): seq<Step>
  {
    if |steps| == 0 then []
    else if IsWalking(steps[0]) then [steps[0]] + WalkingSteps(steps[1..])
    else WalkingSteps(steps[1..])
  }

  /** The filter keeps each walking step as often as it occurs and drops
      every other step. */
  lemma {:induction false} WalkingStepsCounts(steps: seq<Step>)
    ensures forall s :: multiset(WalkingSteps(steps))[s] == if IsWalking(s) then multiset(steps)[s] else 0
  {
    if |steps| > 0 {
      WalkingStepsCounts(steps[1..]);
      assert steps == [steps[0]] + steps[1..];
    }
  }

  /** The filter keeps exactly the walking steps, each as often as it
      occurs, and never adds any. */
  lemma {:induction false} WalkingStepsMembers(steps: seq<Step>)
    ensures |WalkingSteps(steps)| <= |steps|
    ensures forall s :: s in WalkingSteps(steps) <==> s in steps && IsWalking(s)
    ensures forall s :: multiset(WalkingSteps(steps))[s] == if IsWalking(s) then multiset(steps)[s] else 0
  {
    WalkingStepsCounts(steps);
    if |steps| > 0 {
      WalkingStepsMembers(steps[1..]);
      assert forall s :: s in steps <==> s == steps[0] || s in steps[1..];
    }
  }

  function TotalDistance(steps: seq<Step>): int
  {
    if |steps| == 0 then 0 else steps[0].distance + TotalDistance(steps[1..])
  }

  /** The decoded polylines of `steps`, concatenated in order. */
  function DecodeAll(steps: seq<Step>, decode: Decoder): seq<Point>
  {
    if |steps| == 0 then [] else decode(steps[0].polyline) + DecodeAll(steps[1..], decode)
  }

  /** The route's walking distance: the sum over its walking steps. */
  function WalkingDistance(r: Route): int
  {
    TotalDistance(WalkingSteps(Steps(r.legs)))
  }

  /** The route's walking points: its walking steps' decoded polylines, in order. */
  function WalkingPoints(r: Route, decode: Decoder): seq<Point>
  {
    DecodeAll(WalkingSteps(Steps(r.legs)), decode)
  }

  lemma {:induction false} StepsAppend(a: seq<Leg>, b: seq<Leg>)
    ensures Steps(a + b) == Steps(a) + Steps(b)
  {
    if |a| == 0 {
      assert a + b == b;
    } else {
      assert (a + b)[1..] == a[1..] + b;
      StepsAppend(a[1..], b);
    }
  }

  /** Filtering distributes over concatenation, so the kept steps keep
      their relative order. */
  lemma {:induction false} WalkingStepsAppend(a: seq<Step>, b: seq<Step>)
    ensures WalkingSteps(a + b) == WalkingSteps(a) + WalkingSteps(b)
  {
    if |a| == 0 {
      assert a + b == b;
    } else {
      assert (a + b)[1..] == a[1..] + b;
      WalkingStepsAppend(a[1..], b);
    }
  }

  lemma {:induction false} TotalDistanceAppend(a: seq<Step>, b: seq<Step>)
    ensures TotalDistance(a + b) == TotalDistance(a) + TotalDistance(b)
  {
    if |a| == 0 {
      assert a + b == b;
    } else {
      assert (a + b)[1..] == a[1..] + b;
      TotalDistanceAppend(a[1..], b);
    }
  }

  lemma {:induction false} DecodeAllAppend(a: seq<Step>, b: seq<Step>, decode: Decoder)
    ensures DecodeAll(a + b, decode) == DecodeAll(a, decode) + DecodeAll(b, decode)
  {
    if |a| == 0 {
      assert a + b == b;
    } else {
      assert (a + b)[1..] == a[1..] + b;
      DecodeAllAppend(a[1..], b, decode);
    }
  }

  /** One step of the inner loop of `get_routes`: appending `s` to the steps seen so
      far changes the running distance and point list exactly as the loop body does. */
  lemma StepExtends(seen: seq<Step>, s: Step, decode: Decoder)
    ensures TotalDistance(WalkingSteps(seen + [s]))
         == TotalDistance(WalkingSteps(seen)) + (if IsWalking(s) then s.distance else 0)
    ensures DecodeAll(WalkingSteps(seen + [s]), decode)
         == DecodeAll(WalkingSteps(seen), decode) + (if IsWalking(s) then decode(s.polyline) else [])
  {
    WalkingStepsAppend(seen, [s]);
    TotalDistanceAppend(WalkingSteps(seen), WalkingSteps([s]));
    DecodeAllAppend(WalkingSteps(seen), WalkingSteps([s]), decode);
  }

  /** The inner loop of the accumulation, over the steps of one leg,
      continuing from the running distance and point list. */
  method WalkLeg(steps: seq<Step>, decode: Decoder, dist0: int, points0: seq<Point>)
    returns (dist: int, points: seq<Point>)
    ensures dist == dist0 + TotalDistance(WalkingSteps(steps))
    ensures points == points0 + DecodeAll(WalkingSteps(steps), decode)
  {
    dist := dist0;
    points := points0;
    var j := 0;
    while j < |steps|
      invariant 0 <= j <= |steps|
      invariant dist == dist0 + TotalDistance(WalkingSteps(steps[..j]))
      invariant points == points0 + DecodeAll(WalkingSteps(steps[..j]), decode)
    {
      var step := steps[j];
      StepExtends(steps[..j], step, decode);
      assert steps[..j + 1] == steps[..j] + [step];
      if step.travelMode == WalkingMode {
        dist := dist + step.distance;
        points := points + decode(step.polyline);
      }
      j := j + 1;
    }
    assert steps[..j] == steps;
  }

  /** Walking over one more leg extends the totals by that leg's steps. */
  lemma LegExtends(legs: seq<Leg>, leg: Leg, decode: Decoder)
    ensures TotalDistance(WalkingSteps(Steps(legs + [leg])))
         == TotalDistance(WalkingSteps(Steps(legs))) + TotalDistance(WalkingSteps(leg.steps))
    ensures DecodeAll(WalkingSteps(Steps(legs + [leg])), decode)
         == DecodeAll(WalkingSteps(Steps(legs)), decode) + DecodeAll(WalkingSteps(leg.steps), decode)
  {
    StepsAppend(legs, [leg]);
    assert Steps([leg]) == leg.steps;
    WalkingStepsAppend(Steps(legs), leg.steps);
    TotalDistanceAppend(WalkingSteps(Steps(legs)), WalkingSteps(leg.steps));
    DecodeAllAppend(WalkingSteps(Steps(legs)), WalkingSteps(leg.steps), decode);
  }

  /**
   * The accumulation loop of `get_routes`: walk the legs, then their steps,
   * adding each walking step's distance and decoded points.
   */
  method ExtractWalking(r: Route, decode: Decoder) returns (dist: int, points: seq<Point>)
    ensures dist == WalkingDistance(r)
    ensures points == WalkingPoints(r, decode)
  {
    dist := 0;
    points := [];
    var i := 0;
    while i < |r.legs|
      invariant 0 <= i <= |r.legs|
      invariant dist == TotalDistance(WalkingSteps(Steps(r.legs[..i])))
      invariant points == DecodeAll(WalkingSteps(Steps(r.legs[..i])), decode)
    {
      LegExtends(r.legs[..i], r.legs[i], decode);
      assert r.legs[..i + 1] == r.legs[..i] + [r.legs[i]];
      dist, points := WalkLeg(r.legs[i].steps, decode, dist, points);
      i := i + 1;
    }
    assert r.legs[..i] == r.legs;
  }

  /** Independent reference for the walking distance: every step counts,
      with the value `distance` if it walks and 0 otherwise. */
  function MaskedDistance(steps: seq<Step>): int
  {
    if |steps| == 0 then 0
    else (if IsWalking(steps[0]) then steps[0].distance else 0) + MaskedDistance(steps[1..])
  }

  /** The number of points a walking step contributes, summed the same way. */
  function MaskedPointCount(steps: seq<Step>, decode: Decoder): nat
  {
    if |steps| == 0 then 0
    else (if IsWalking(steps[0]) then |decode(steps[0].polyline)| else 0)
         + MaskedPointCount(steps[1..], decode)
  }

  /** The points a step contributes, concatenated the same way: its decoded
      polyline if it walks and nothing otherwise. */
  function MaskedPoints(steps: seq<Step>, decode: Decoder): seq<Point>
  {
    if |steps| == 0 then []
    else (if IsWalking(steps[0]) then decode(steps[0].polyline) else []) + MaskedPoints(steps[1..], decode)
  }

  /** Steps of other modes contribute nothing to the distance, and walking
      steps contribute exactly their `distance.value`. */
  lemma {:induction false} WalkingDistanceIsMasked(steps: seq<Step>)
    ensures TotalDistance(WalkingSteps(steps)) == MaskedDistance(steps)
  {
    if |steps| > 0 {
      WalkingDistanceIsMasked(steps[1..]);
    }
  }

  /** Nothing is deduplicated or added: the point list is exactly as long
      as all walking steps' decoded polylines together. */
  lemma {:induction false} WalkingPointCount(steps: seq<Step>, decode: Decoder)
    ensures |DecodeAll(WalkingSteps(steps), decode)| == MaskedPointCount(steps, decode)
  {
    if |steps| > 0 {
      WalkingPointCount(steps[1..], decode);
    }
  }

  /** Filtering first and decoding the survivors gives the same points, in
      the same order, as decoding every step with non-walking steps masked. */
  lemma {:induction false} WalkingPointsAreMasked(steps: seq<Step>, decode: Decoder)
    ensures DecodeAll(WalkingSteps(steps), decode) == MaskedPoints(steps, decode)
  {
    if |steps| > 0 {
      WalkingPointsAreMasked(steps[1..], decode);
      if !IsWalking(steps[0]) {
        assert [] + MaskedPoints(steps[1..], decode) == MaskedPoints(steps[1..], decode);
      }
    }
  }

  /** A point is in the list exactly when some walking step's decoded
      polyline contains it. */
  lemma {:induction false} WalkingPointSource(steps: seq<Step>, decode: Decoder, p: Point)
    ensures p in DecodeAll(WalkingSteps(steps), decode)
        <==> exists s :: s in steps && IsWalking(s) && p in decode(s.polyline)
  {
    if |steps| > 0 {
      WalkingPointSource(steps[1..], decode, p);
      assert forall s :: s in steps <==> s == steps[0] || s in steps[1..];
    }
  }

  /** The route-level statement of the walking-segment contract. */
  lemma RouteWalkingSegments(r: Route, decode: Decoder)
    ensures WalkingDistance(r) == MaskedDistance(Steps(r.legs))
    ensures WalkingPoints(r, decode) == MaskedPoints(Steps(r.legs), decode)
    ensures |WalkingPoints(r, decode)| == MaskedPointCount(Steps(r.legs), decode)
    ensures forall p :: (p in WalkingPoints(r, decode)
      <==> exists s :: s in Steps(r.legs) && IsWalking(s) && p in decode(s.polyline))
  {
    WalkingDistanceIsMasked(Steps(r.legs));
    WalkingPointsAreMasked(Steps(r.legs), decode);
    WalkingPointCount(Steps(r.legs), decode);
    forall p
      ensures p in WalkingPoints(r, decode)
          <==> exists s :: s in Steps(r.legs) && IsWalking(s) && p in decode(s.polyline)
    {
      WalkingPointSource(Steps(r.legs), decode, p);
    }
  }
}

=== FILE: properties.dfy ===
/**
 * What the `/directions` handler promises, stated against independent
 * descriptions of its work: the (offset, alternative) pairs it visits, the
 * record each one yields, and the hourly schedule of its routing requests.
 */
module HandlerProperties {
  import opened Wrappers
  import opened Directions
  import opened Query
  import opened Window
  import opened Scoring

  /** One (offset, alternative) pair: the offset is the recorded
      `departure_offset` in seconds. */
  datatype Visit = Visit(offset: int, route: Route)

  /** A visit whose crime rate can be computed without a zero divisor. */
  predicate Scorable(v: Visit)
  {
    WalkingDistance(v.route) != 0
  }

  /** The record a scorable visit yields. */
  function RecordOf<L>(v: Visit, env: Env<L>): RouteRecord<L>
    requires Scorable(v)
  {
    MakeRecord(v.route, v.offset, env.search(RouteQuery(v.route, env)), WalkingDistance(v.route))
  }

  /** The visits at one offset, in the provider's order. */
  function VisitsAt(routes: seq<Route>, offset: int): seq<Visit>
  {
    seq(|routes|, j requires 0 <= j < |routes| => Visit(offset, routes[j]))
  }

  /** Every visit of the window from `offset` on: offset-major, then the
      provider's order. */
  function Visits<L>(offset: int, till: int, departure: int, env: Env<L>): seq<Visit>
    decreases till - offset
  {
    if offset > till then []
    else
      VisitsAt(env.directions(departure + SecondsField(offset)), SecondsField(offset))
      + Visits(offset + SecondsPerHour, till, departure, env)
  }

  // ---------------------------------------------------------------------
  // Records

  predicate AllScorable(vs: seq<Visit>)
  {
    forall i :: 0 <= i < |vs| ==> Scorable(vs[i])
  }

  /** `records` is one record per visit of `vs`, in the same order. */
  ghost predicate RecordsMatch<L>(records: seq<RouteRecord<L>>, vs: seq<Visit>, env: Env<L>)
  {
    && |records| == |vs|
    && forall i :: 0 <= i < |vs| ==> Scorable(vs[i]) && records[i] == RecordOf(vs[i], env)
  }

  lemma AllScorableAppend(a: seq<Visit>, b: seq<Visit>)
    ensures AllScorable(a + b) <==> AllScorable(a) && AllScorable(b)
  {
    if AllScorable(a) && AllScorable(b) {
      forall i | 0 <= i < |a + b|
        ensures Scorable((a + b)[i])
      {
        if i >= |a| {
          assert (a + b)[i] == b[i - |a|];
        }
      }
    }
    if AllScorable(a + b) {
      forall i | 0 <= i < |a|
        ensures Scorable(a[i])
      {
        assert (a + b)[i] == a[i];
      }
      forall i | 0 <= i < |b|
        ensures Scorable(b[i])
      {
        assert (a + b)[i + |a|] == b[i];
      }
    }
  }

  lemma RecordsMatchAppend<L>(ra: seq<RouteRecord<L>>, rb: seq<RouteRecord<L>>, a: seq<Visit>, b: seq<Visit>, env: Env<L>)
    requires RecordsMatch(ra, a, env) && RecordsMatch(rb, b, env)
    ensures RecordsMatch(ra + rb, a + b, env)
  {
    forall i | |a| <= i < |a + b|
      ensures Scorable((a + b)[i]) && (ra + rb)[i] == RecordOf((a + b)[i], env)
    {
      assert (a + b)[i] == b[i - |a|];
      assert (ra + rb)[i] == rb[i - |a|];
    }
  }

  /** `run` accounts for the visits `vs`: it raised exactly when some visit
      has no walking distance, and otherwise holds one record per visit, in
      visit order. */
  ghost predicate Accounts<L>(run: Run<L>, vs: seq<Visit>, env: Env<L>)
  {
    && (run.failed <==> !AllScorable(vs))
    && (!run.failed ==> RecordsMatch(run.records, vs, env))
  }

  /** Running `a` then `b` accounts for the visits of both, in order. */
  lemma ThenAccounts<L>(a: Run<L>, b: Run<L>, va: seq<Visit>, vb: seq<Visit>, env: Env<L>)
    requires Accounts(a, va, env) && Accounts(b, vb, env)
    ensures Accounts(Then(a, b), va + vb, env)
  {
    AllScorableAppend(va, vb);
    if !a.failed && !b.failed {
      RecordsMatchAppend(a.records, b.records, va, vb, env);
    }
  }

  /** One alternative accounts for its own visit. */
  lemma ScoreRouteAccounts<L>(r: Route, offset: int, env: Env<L>)
    ensures Accounts(ScoreRoute(r, offset, env), [Visit(offset, r)], env)
  {
    var v := Visit(offset, r);
    var run := ScoreRoute(r, offset, env);
    if Scorable(v) {
      assert run.records == [RecordOf(v, env)];
    } else {
      assert !AllScorable([v]) by { assert [v][0] == v; }
    }
  }

  lemma VisitsAtCons(routes: seq<Route>, offset: int)
    requires |routes| > 0
    ensures VisitsAt(routes, offset) == [Visit(offset, routes[0])] + VisitsAt(routes[1..], offset)
  {
    assert VisitsAt(routes, offset)[1..] == VisitsAt(routes[1..], offset);
  }

  /** The route loop at one offset raises exactly when some alternative has
      no walking distance; otherwise it yields one record per alternative,
      in order, and makes one search per alternative. */
  lemma {:induction false} ScoreRoutesVisits<L>(routes: seq<Route>, offset: int, env: Env<L>)
    ensures Accounts(ScoreRoutes(routes, offset, env), VisitsAt(routes, offset), env)
    ensures !ScoreRoutes(routes, offset, env).failed ==> |ScoreRoutes(routes, offset, env).calls| == |routes|
  {
    if |routes| > 0 {
      var head := ScoreRoute(routes[0], offset, env);
      var tail := ScoreRoutes(routes[1..], offset, env);
      ScoreRoutesVisits(routes[1..], offset, env);
      ScoreRouteAccounts(routes[0], offset, env);
      ThenAccounts(head, tail, [Visit(offset, routes[0])], VisitsAt(routes[1..], offset), env);
      VisitsAtCons(routes, offset);
      assert ScoreRoutes(routes, offset, env) == Then(head, tail);
      assert |head.calls| == 1;
    }
  }

  lemma VisitsParts<L>(offset: int, till: int, departure: int, env: Env<L>)
    requires offset <= till
    ensures Visits(offset, till, departure, env)
         == VisitsAt(env.directions(departure + SecondsField(offset)), SecondsField(offset))
            + Visits(offset + SecondsPerHour, till, departure, env)
  {
  }

  /** The routing request yields no record and cannot raise, so prefixing
      it changes nothing that `Accounts` sees. */
  lemma AskAccounts<L>(when: int, here: Run<L>, hs: seq<Visit>, env: Env<L>)
    requires Accounts(here, hs, env)
    ensures Accounts(Then(Run([], [DirectionsCall(when)], false), here), hs, env)
  {
    assert [] + here.records == here.records;
  }

  /** One pass of the offset loop: the routing request at `when`, then the
      route loop over what it returned. */
  lemma ScoreOffsetUnfolds<L>(departure: int, offset: int, env: Env<L>, seconds: int, when: int)
    requires seconds == SecondsField(offset) && when == departure + seconds
    ensures ScoreOffset(departure, offset, env)
         == Then(Run([], [DirectionsCall(when)], false), ScoreRoutes(env.directions(when), seconds, env))
  {
  }

  /** One pass of the offset loop accounts for the visits at that offset. */
  lemma ScoreOffsetAccounts<L>(departure: int, offset: int, env: Env<L>)
    ensures Accounts(ScoreOffset(departure, offset, env),
                     VisitsAt(env.directions(departure + SecondsField(offset)), SecondsField(offset)), env)
  {
    var when := departure + SecondsField(offset);
    var here := ScoreRoutes(env.directions(when), SecondsField(offset), env);
    ScoreRoutesVisits(env.directions(when), SecondsField(offset), env);
    AskAccounts(when, here, VisitsAt(env.directions(when), SecondsField(offset)), env);
  }

  /** The offset loop raises exactly when some visit has no walking
      distance; otherwise its records are one per visit, in visit order. */
  lemma {:induction false} ScoreWindowVisits<L>(offset: int, till: int, departure: int, env: Env<L>)
    decreases till - offset
    ensures Accounts(ScoreWindow(offset, till, departure, env), Visits(offset, till, departure, env), env)
  {
    if offset <= till {
      var hs := VisitsAt(env.directions(departure + SecondsField(offset)), SecondsField(offset));
      var rs := Visits(offset + SecondsPerHour, till, departure, env);
      ScoreOffsetAccounts(departure, offset, env);
      ScoreWindowVisits(offset + SecondsPerHour, till, departure, env);
      ThenAccounts(ScoreOffset(departure, offset, env), ScoreWindow(offset + SecondsPerHour, till, departure, env), hs, rs, env);
      VisitsParts(offset, till, departure, env);
    } else {
      assert Visits(offset, till, departure, env) == [];
    }
  }

  /** What a record holds: the route's overview polyline, the offset, one
      location per hit of the route's own query, in hit order, and a rate
      that times the walking distance gives the number of those hits. */
  lemma RecordContents<L>(v: Visit, env: Env<L>)
    requires Scorable(v)
    ensures
      var rec := RecordOf(v, env);
      var hits := env.search(MakeQuery(WalkingPoints(v.route, env.decode), env.proximity));
      && rec.polyline == v.route.overviewPolyline
      && rec.departureOffset == v.offset
      && |rec.crimeLocations| == |hits|
      && (forall i :: 0 <= i < |hits| ==> rec.crimeLocations[i] == hits[i].location)
      && rec.crimeRate * WalkingDistance(v.route) as real == |hits| as real
  {
    var rec := RecordOf(v, env);
    CrimeRateSpreadsHits(|rec.crimeLocations|, WalkingDistance(v.route));
  }

  /** A route with no walking step is still searched, with a query that has
      no proximity clause at all, and then the division raises. */
  lemma RouteWithoutWalkingFails<L>(r: Route, offset: int, env: Env<L>)
    requires WalkingSteps(Steps(r.legs)) == []
    ensures ScoreRoute(r, offset, env).failed
    ensures ScoreRoute(r, offset, env).calls == [SearchCall(MakeQuery([], env.proximity))]
    ensures MakeQuery([], env.proximity).query.should == []
  {
  }

  /** The handler's answer: with a valid window it answers exactly when every
      visited alternative has walking distance, and then lists one record
      per visit, offset-major and in the provider's order; otherwise the
      division raises and the request fails. */
  lemma ServeRecords<L>(req: Request, env: Env<L>)
    requires ValidateTill(req.till).Success?
    requires HoursDelta(ValidateTill(req.till).value).Some?
    ensures
      var till := HoursDelta(ValidateTill(req.till).value).value;
      var vs := Visits(0, till, req.departure, env);
      var out := Serve(req, env).0;
      && (out.Ok? <==> AllScorable(vs))
      && (!out.Ok? ==> out == ServerError(ZeroWalkingDistance))
      && (out.Ok? ==> RecordsMatch(out.response.routes, vs, env))
      && (out.Ok? ==> out.response.departure == req.departure && out.response.travelMode == req.travelMode
                      && out.response.origin == req.origin && out.response.destination == req.destination)
  {
    var till := HoursDelta(ValidateTill(req.till).value).value;
    ScoreWindowVisits(0, till, req.departure, env);
  }

  // ---------------------------------------------------------------------
  // Order of visits

  /** `timedelta.seconds` of a whole number of hours inside one day. */
  lemma HourSeconds(k: int)
    requires 0 <= k < 24
    ensures SecondsField(k * SecondsPerHour) == k * SecondsPerHour
  {
  }

  /** Offsets along `vs` never decrease, and each is a whole hour in `[lo, hi]`. */
  predicate OffsetMajor(vs: seq<Visit>, lo: int, hi: int)
  {
    && (forall i :: 0 <= i < |vs| ==> vs[i].offset % SecondsPerHour == 0 && lo <= vs[i].offset <= hi)
    && (forall i, j :: 0 <= i < j < |vs| ==> vs[i].offset <= vs[j].offset)
  }

  /** The visits of a window that stays within one day come offset-major. */
  lemma {:induction false} VisitsOffsetMajor<L>(offset: int, till: int, departure: int, env: Env<L>)
    requires 0 <= offset && offset % SecondsPerHour == 0 && till < SecondsPerDay
    decreases till - offset
    ensures OffsetMajor(Visits(offset, till, departure, env), offset, till)
  {
    var vs := Visits(offset, till, departure, env);
    if offset <= till {
      var next := offset + SecondsPerHour;
      var hs := VisitsAt(env.directions(departure + offset), offset);
      var rs := Visits(next, till, departure, env);
      VisitsOffsetMajor(next, till, departure, env);
      assert vs == hs + rs;
      forall i | 0 <= i < |vs|
        ensures vs[i].offset % SecondsPerHour == 0 && offset <= vs[i].offset <= till
        ensures i < |hs| ==> vs[i].offset == offset
        ensures i >= |hs| ==> vs[i].offset >= next
      {
        if i < |hs| {
          assert vs[i] == hs[i];
        } else {
          assert vs[i] == rs[i - |hs|];
        }
      }
    }
  }

  /** For a window of `h < 24` hours the visits come offset-major, each at a
      whole hour between 0 and `h`. */
  lemma WindowVisitsOffsetMajor<L>(h: int, departure: int, env: Env<L>)
    requires h < 24
    ensures OffsetMajor(Visits(0, h * SecondsPerHour, departure, env), 0, h * SecondsPerHour)
  {
    VisitsOffsetMajor(0, h * SecondsPerHour, departure, env);
  }

  // ---------------------------------------------------------------------
  // Routing requests

  /** The departure times of the routing requests in a call trace, in order. */
  function DirectionsTimes(calls: seq<Call>): seq<int>
  {
    if |calls| == 0 then [] else TimeOf(calls[0]) + DirectionsTimes(calls[1..])
  }

  function TimeOf(c: Call): seq<int>
  {
    match c
    case DirectionsCall(t) => [t]
    case SearchCall(_) => []
  }

  lemma {:induction false} DirectionsTimesAppend(a: seq<Call>, b: seq<Call>)
    ensures DirectionsTimes(a + b) == DirectionsTimes(a) + DirectionsTimes(b)
  {
    if |a| == 0 {
      assert a + b == b;
    } else {
      assert (a + b)[1..] == a[1..] + b;
      assert (a + b)[0] == a[0];
      DirectionsTimesAppend(a[1..], b);
      calc {
        DirectionsTimes(a + b);
        TimeOf(a[0]) + DirectionsTimes(a[1..] + b);
        TimeOf(a[0]) + (DirectionsTimes(a[1..]) + DirectionsTimes(b));
        (TimeOf(a[0]) + DirectionsTimes(a[1..])) + DirectionsTimes(b);
      }
    }
  }

  /** The route loop only searches; it never asks for directions. */
  lemma {:induction false} ScoreRoutesOnlySearch<L>(routes: seq<Route>, offset: int, env: Env<L>)
    ensures DirectionsTimes(ScoreRoutes(routes, offset, env).calls) == []
  {
    if |routes| > 0 {
      ScoreRoutesOnlySearch(routes[1..], offset, env);
      var one := ScoreRoute(routes[0], offset, env);
      var tail := ScoreRoutes(routes[1..], offset, env);
      assert DirectionsTimes(one.calls) == [];
      DirectionsTimesAppend(one.calls, tail.calls);
    }
  }

  /** The departure times the offset loop would ask for if nothing raised. */
  function Schedule(offset: int, till: int, departure: int): seq<int>
    decreases till - offset
  {
    if offset > till then [] else [departure + SecondsField(offset)] + Schedule(offset + SecondsPerHour, till, departure)
  }

  /** The routing requests of `run` follow `times`: a prefix of them
      always, all of them when nothing raised. */
  predicate Follows<L>(run: Run<L>, times: seq<int>)
  {
    && DirectionsTimes(run.calls) <= times
    && (!run.failed ==> DirectionsTimes(run.calls) == times)
  }

  lemma ThenFollows<L>(a: Run<L>, b: Run<L>, ta: seq<int>, tb: seq<int>)
    requires Follows(a, ta) && Follows(b, tb)
    ensures Follows(Then(a, b), ta + tb)
  {
    var da := DirectionsTimes(a.calls);
    var db := DirectionsTimes(b.calls);
    if a.failed {
      assert da == (ta + tb)[..|da|];
    } else {
      DirectionsTimesAppend(a.calls, b.calls);
      assert da + db == (ta + tb)[..|da + db|];
    }
  }

  /** Prefixing the routing request at `when` to a run that asks for no
      directions gives a run that asks exactly once, at `when`. */
  lemma AskFollows<L>(when: int, here: Run<L>, run: Run<L>)
    requires DirectionsTimes(here.calls) == []
    requires run == Then(Run([], [DirectionsCall(when)], false), here)
    ensures Follows(run, [when])
  {
    var ask: Run<L> := Run([], [DirectionsCall(when)], false);
    assert ask.calls[1..] == [];
    assert DirectionsTimes(ask.calls) == [when];
    DirectionsTimesAppend(ask.calls, here.calls);
    assert [when] + [] == [when];
  }

  /** One pass of the offset loop asks for directions once, at its own time. */
  lemma ScoreOffsetFollows<L>(departure: int, offset: int, env: Env<L>)
    ensures Follows(ScoreOffset(departure, offset, env), [departure + SecondsField(offset)])
  {
    var seconds := SecondsField(offset);
    var when := departure + seconds;
    var here := ScoreRoutes(env.directions(when), seconds, env);
    ScoreOffsetUnfolds(departure, offset, env, seconds, when);
    ScoreRoutesOnlySearch(env.directions(when), seconds, env);
    AskFollows(when, here, ScoreOffset(departure, offset, env));
  }

  /** The routing requests follow the schedule: a prefix of it always, all
      of it when nothing raised. */
  lemma {:induction false} WindowFollowsSchedule<L>(offset: int, till: int, departure: int, env: Env<L>)
    decreases till - offset
    ensures Follows(ScoreWindow(offset, till, departure, env), Schedule(offset, till, departure))
  {
    if offset <= till {
      ScoreOffsetFollows(departure, offset, env);
      WindowFollowsSchedule(offset + SecondsPerHour, till, departure, env);
      ThenFollows(ScoreOffset(departure, offset, env), ScoreWindow(offset + SecondsPerHour, till, departure, env),
                  [departure + SecondsField(offset)], Schedule(offset + SecondsPerHour, till, departure));
    }
  }

  /** The schedule of a window of `h` hours from hour `k`: one request per
      whole hour `k, k+1, …, h`, in increasing order. */
  lemma {:induction false} ScheduleIsHourly(k: nat, h: int, departure: int)
    requires h < 24
    decreases h - k
    ensures Schedule(k * SecondsPerHour, h * SecondsPerHour, departure)
         == seq(if k <= h then h - k + 1 else 0, i => departure + (k + i) * SecondsPerHour)
  {
    if k <= h {
      HourSeconds(k);
      assert (k + 1) * SecondsPerHour == k * SecondsPerHour + SecondsPerHour;
      ScheduleIsHourly(k + 1, h, departure);
    } else {
      assert k * SecondsPerHour > h * SecondsPerHour;
    }
  }

  /** The handler asks the routing provider at `departure + k·3600` for
      k = 0, 1, …, till, in that order — all of them when it answers, a
      prefix when it fails — and never for a negative window. */
  lemma DirectionsAskedHourly<L>(req: Request, env: Env<L>)
    requires ValidateTill(req.till).Success?
    ensures
      var h := ValidateTill(req.till).value;
      var (out, calls) := Serve(req, env);
      var hourly := seq(if h >= 0 then h + 1 else 0, k => req.departure + k * SecondsPerHour);
      && DirectionsTimes(calls) <= hourly
      && (out.Ok? ==> DirectionsTimes(calls) == hourly)
  {
    var h := ValidateTill(req.till).value;
    if HoursDelta(h).Some? {
      WindowFollowsSchedule(0, h * SecondsPerHour, req.departure, env);
      ScheduleIsHourly(0, h, req.departure);
    }
  }

  /** A negative window makes no external call and answers with no routes,
      unless `timedelta` overflows first. */
  lemma NegativeWindowIsEmpty<L>(req: Request, env: Env<L>)
    requires ValidateTill(req.till).Success? && ValidateTill(req.till).value < 0
    ensures Serve(req, env).1 == []
    ensures HoursDelta(ValidateTill(req.till).value).Some? ==>
      Serve(req, env).0 == Ok(Response(req.departure, req.travelMode, req.origin, req.destination, []))
    ensures HoursDelta(ValidateTill(req.till).value).None? ==>
      Serve(req, env).0 == ServerError(DeltaOverflow)
  {
  }
}

=== FILE: query.dfy ===
/**
 * The Elasticsearch request body built by `make_query`: a boolean query that
 * matches everything (`must: match_all`) but keeps only documents within the
 * configured proximity of at least one walking point (`should` clauses with
 * `minimum_should_match: 1`), asking for at most 10000 hits.
 */
module Query {
  import opened Directions

  /** The hit cap written into every request body (`size`). */
  const MaxHits: int := 10000

  /** A `geo_distance` clause: the configured `CRIME_PROXIMITY` and a centre. */
  datatype GeoDistance = GeoDistance(distance: string, lat: real, lon: real)

  /** The empty `match_all` object. */
  datatype MatchAll = MatchAll

  datatype BoolQuery = BoolQuery(must: MatchAll, should: seq<GeoDistance>, minimumShouldMatch: int)

  datatype SearchBody = SearchBody(size: int, query: BoolQuery)

  /** `get_bounding_box(lat, lon)`: one proximity clause around a centre. */
  function BoundingBox(proximity: string, lat: real, lon: real): (g: GeoDistance)
    ensures g.distance == proximity && g.lat == lat && g.lon == lon
  {
    GeoDistance(proximity, lat, lon)
  }

  /** The `should` list: one clause per point, in point order, with the
      point's second component as `lat` and its first as `lon`. */
  function Clauses(points: seq<Point>, proximity: string): (cs: seq<GeoDistance>)
    ensures |cs| == |points|
    ensures forall i :: 0 <= i < |points| ==>
      cs[i].distance == proximity && cs[i].lat == points[i].c1 && cs[i].lon == points[i].c0
  {
    if |points| == 0 then []
    else [BoundingBox(proximity, points[0].c1, points[0].c0)] + Clauses(points[1..], proximity)
  }

  /** `make_query(points)`. */
  function MakeQuery(points: seq<Point>, proximity: string): (q: SearchBody)
    ensures q.size == MaxHits
    ensures q.query.must == MatchAll && q.query.minimumShouldMatch == 1
    ensures |q.query.should| == |points|
    ensures forall i :: 0 <= i < |points| ==>
      q.query.should[i] == BoundingBox(proximity, points[i].c1, points[i].c0)
  {
    SearchBody(MaxHits, BoolQuery(MatchAll, Clauses(points, proximity), 1))
  }

  /** The shape every body built by `MakeQuery` has, whatever its points. */
  predicate IsProximityQuery(q: SearchBody, proximity: string)
  {
    && q.size == MaxHits
    && q.query.minimumShouldMatch == 1
    && forall i :: 0 <= i < |q.query.should| ==> q.query.should[i].distance == proximity
  }

  /** Reads the points back out of a body, undoing the coordinate swap. */
  function QueryPoints(q: SearchBody): (ps: seq<Point>)
  {
    seq(|q.query.should|, i requires 0 <= i < |q.query.should| =>
      Point(q.query.should[i].lon, q.query.should[i].lat))
  }

  /** Building a query loses nothing: the points, their order and their
      multiplicity can be read back, and the body has the fixed shape. */
  lemma QueryRoundTrip(points: seq<Point>, proximity: string)
    ensures IsProximityQuery(MakeQuery(points, proximity), proximity)
    ensures QueryPoints(MakeQuery(points, proximity)) == points
  {
  }

  /** Conversely, every body of that shape is the query of its own points. */
  lemma QueryOfQueryPoints(q: SearchBody, proximity: string)
    requires IsProximityQuery(q, proximity)
    ensures MakeQuery(QueryPoints(q), proximity) == q
  {
    var q' := MakeQuery(QueryPoints(q), proximity);
    assert q'.query.should == q.query.should;
  }

  /** Two point lists give the same body only if they are the same list. */
  lemma MakeQueryInjective(a: seq<Point>, b: seq<Point>, proximity: string)
    requires MakeQuery(a, proximity) == MakeQuery(b, proximity)
    ensures a == b
  {
    QueryRoundTrip(a, proximity);
    QueryRoundTrip(b, proximity);
  }
}

=== FILE: scoring.dfy ===
/**
 * The `/directions` handler `get_routes`: validate the window, then for every
 * hourly offset ask the routing provider for alternatives and, for each one,
 * extract its walking segments, search the incident index around them and
 * emit one record with the hit count per walking metre.
 *
 * The routing provider, the index and the polyline decoder are fields of
 * `Env`; the handler's external calls are returned as a trace so that what
 * it asks of them, and in which order, is part of the model.
 */
module Scoring {
  import opened Wrappers
  import opened Directions
  import opened Query
  import opened Window

  /** A search hit, reduced to its `_source.location`, whose shape is the index's. */
  datatype Hit<L> = Hit(location: L)

  /** One element of `response['routes']`. */
  datatype RouteRecord<L> = RouteRecord(
    polyline: string,
    departureOffset: int,
    crimeRate: real,
    crimeLocations: seq<L>)

  /** An external call: a directions request for a departure time, or a search. */
  datatype Call = DirectionsCall(departureTime: int) | SearchCall(body: SearchBody)

  /** The collaborators: route alternatives for a departure time (origin,
      destination and mode are fixed per request), the index search, the
      polyline decoder, and the configured `CRIME_PROXIMITY`. */
  datatype Env<L> = Env(
    directions: int -> seq<Route>,
    search: SearchBody -> seq<Hit<L>>,
    decode: Decoder,
    proximity: string)

  datatype Request = Request(
    departure: int,
    travelMode: string,
    origin: string,
    destination: string,
    till: TillArg)

  /** The JSON body: the echoed request parameters and the route records. */
  datatype Response<L> = Response(
    departure: int,
    travelMode: string,
    origin: string,
    destination: string,
    routes: seq<RouteRecord<L>>)

  /** Exceptions the handler does not catch, each ending the request with a 500. */
  datatype Fault =
    | ZeroWalkingDistance  // `ZeroDivisionError` in the crime-rate division
    | DeltaOverflow        // `OverflowError` from `timedelta(hours=till)`

  datatype Outcome<L> = Ok(response: Response<L>) | BadRequest(rejection: Rejection) | ServerError(fault: Fault)

  /** Hits per walking metre; Python raises on a zero divisor. */
  function CrimeRate(hits: nat, dist: int): (rate: real)
    requires dist != 0
    ensures hits == 0 <==> rate == 0.0
    ensures dist > 0 ==> rate >= 0.0
  {
    hits as real / dist as real
  }

  /** The rate is the hit count spread over the walking distance: scaled
      back by the distance it gives the count, it is never negative for a
      positive distance, and it is zero exactly when there are no hits. */
  lemma CrimeRateSpreadsHits(hits: nat, dist: int)
    requires dist != 0
    ensures CrimeRate(hits, dist) * dist as real == hits as real
    ensures dist > 0 ==> CrimeRate(hits, dist) >= 0.0
    ensures hits == 0 <==> CrimeRate(hits, dist) == 0.0
  {
  }

  /** `[hit['_source']['location'] for hit in hits]`. */
  function Locations<L>(hits: seq<Hit<L>>): (ls: seq<L>)
    ensures |ls| == |hits|
    ensures forall i :: 0 <= i < |hits| ==> ls[i] == hits[i].location
  {
    seq(|hits|, i requires 0 <= i < |hits| => hits[i].location)
  }

  /** The record appended for a route at an offset, given its hits and distance. */
  function MakeRecord<L>(r: Route, offset: int, hits: seq<Hit<L>>, dist: int): (rec: RouteRecord<L>)
    requires dist != 0
    ensures rec.polyline == r.overviewPolyline && rec.departureOffset == offset
    ensures |rec.crimeLocations| == |hits|
    ensures forall i :: 0 <= i < |hits| ==> rec.crimeLocations[i] == hits[i].location
    ensures rec.crimeRate == CrimeRate(|rec.crimeLocations|, dist)
  {
    RouteRecord(r.overviewPolyline, offset, CrimeRate(|hits|, dist), Locations(hits))
  }

  // ---------------------------------------------------------------------
  // The handler as a composition of runs

  /** What part of the handler has produced so far: records, calls made,
      and whether an exception has ended it. */
  datatype Run<L> = Run(records: seq<RouteRecord<L>>, calls: seq<Call>, failed: bool)

  function Idle<L>(): Run<L>
  {
    Run([], [], false)
  }

  /** `a` followed by `b`, unless `a` raised. */
  function Then<L>(a: Run<L>, b: Run<L>): Run<L>
  {
    if a.failed then a else Run(a.records + b.records, a.calls + b.calls, b.failed)
  }

  lemma ThenAssociative<L>(a: Run<L>, b: Run<L>, c: Run<L>)
    ensures Then(Then(a, b), c) == Then(a, Then(b, c))
  {
  }

  lemma ThenIdle<L>(a: Run<L>)
    ensures Then(Idle(), a) == a
    ensures !a.failed ==> Then(a, Idle()) == a
  {
  }

  /** The search body sent for a route. */
  function RouteQuery<L>(r: Route, env: Env<L>): SearchBody
  {
    MakeQuery(WalkingPoints(r, env.decode), env.proximity)
  }

  /** One pass of the body of `for r in directions`. */
  function ScoreRoute<L>(r: Route, offset: int, env: Env<L>): Run<L>
  {
    var q := RouteQuery(r, env);
    var dist := WalkingDistance(r);
    if dist == 0 then Run([], [SearchCall(q)], true)
    else Run([MakeRecord(r, offset, env.search(q), dist)], [SearchCall(q)], false)
  }

  function ScoreRoutes<L>(routes: seq<Route>, offset: int, env: Env<L>): Run<L>
  {
    if |routes| == 0 then Idle()
    else Then(ScoreRoute(routes[0], offset, env), ScoreRoutes(routes[1..], offset, env))
  }

  /** One pass of the `while` body at the offset `offset` (total seconds). */
  function ScoreOffset<L>(departure: int, offset: int, env: Env<L>): Run<L>
  {
    var when := departure + SecondsField(offset);
    Then(Run([], [DirectionsCall(when)], false), ScoreRoutes(env.directions(when), SecondsField(offset), env))
  }

  /** The `while time_offset <= till` loop from `offset` on. */
  function ScoreWindow<L>(offset: int, till: int, departure: int, env: Env<L>): Run<L>
    decreases till - offset
  {
    if offset > till then Idle()
    else Then(ScoreOffset(departure, offset, env), ScoreWindow(offset + SecondsPerHour, till, departure, env))
  }

  /** The whole handler: its outcome and the external calls it made. */
  function Serve<L>(req: Request, env: Env<L>): (res: (Outcome<L>, seq<Call>))
    ensures res.0.BadRequest? <==> ValidateTill(req.till).Failure?
    ensures res.0.BadRequest? ==> res.0.rejection == Rejection(400, TillMessage) && res.1 == []
    ensures res.0 == ServerError(DeltaOverflow) ==> res.1 == []
    ensures res.0.Ok? ==> res.0.response.departure == req.departure && res.0.response.travelMode == req.travelMode
                          && res.0.response.origin == req.origin && res.0.response.destination == req.destination
  {
    match ValidateTill(req.till)
    case Failure(e) => (BadRequest(e), [])
    case Success(hours) =>
      match HoursDelta(hours)
      case None => (ServerError(DeltaOverflow), [])
      case Some(till) =>
        var run := ScoreWindow(0, till, req.departure, env);
        if run.failed then (ServerError(ZeroWalkingDistance), run.calls)
        else (Ok(Response(req.departure, req.travelMode, req.origin, req.destination, run.records)), run.calls)
  }

  // ---------------------------------------------------------------------
  // `get_routes` as written: loops over offsets and alternatives

  /** One pass of the route loop, as the method computes it: the walking
      totals, the query built from them and the hits it returned. */
  lemma RouteStep<L>(r: Route, seconds: int, env: Env<L>,
                     dist: int, points: seq<Point>, query: SearchBody, hits: seq<Hit<L>>)
    requires dist == WalkingDistance(r) && points == WalkingPoints(r, env.decode)
    requires query == MakeQuery(points, env.proximity) && hits == env.search(query)
    ensures ScoreRoute(r, seconds, env)
         == if dist == 0 then Run([], [SearchCall(query)], true)
            else Run([MakeRecord(r, seconds, hits, dist)], [SearchCall(query)], false)
  {
  }

  /** The `for r in directions` loop at one offset, stopping where the
      division raises. */
  method ScoreAlternatives<L>(alternatives: seq<Route>, seconds: int, env: Env<L>) returns (run: Run<L>)
    ensures run == ScoreRoutes(alternatives, seconds, env)
  {
    ghost var whole := ScoreRoutes(alternatives, seconds, env);
    var acc: Run<L> := Idle();
    assert alternatives[0..] == alternatives;
    ThenIdle(whole);
    var i := 0;
    while i < |alternatives|
      invariant 0 <= i <= |alternatives|
      invariant !acc.failed
      invariant Then(acc, ScoreRoutes(alternatives[i..], seconds, env)) == whole
    {
      var r := alternatives[i];
      assert alternatives[i..][1..] == alternatives[i + 1..];
      ThenAssociative(acc, ScoreRoute(r, seconds, env), ScoreRoutes(alternatives[i + 1..], seconds, env));
      var dist, points := ExtractWalking(r, env.decode);
      var query := MakeQuery(points, env.proximity);
      var hits := env.search(query);
      RouteStep(r, seconds, env, dist, points, query, hits);
      if dist == 0 {
        return Then(acc, Run([], [SearchCall(query)], true));
      }
      acc := Then(acc, Run([MakeRecord(r, seconds, hits, dist)], [SearchCall(query)], false));
      i := i + 1;
    }
    ThenIdle(acc);
    run := acc;
  }

  /** One iteration of the offset loop, stated on an accumulated run: ask
      for the alternatives at `when`, then score them (`here`); the loop's
      invariant carries over to `next`, which is the whole run if it raised. */
  lemma WindowStep<L>(acc: Run<L>, next: Run<L>, whole: Run<L>, offset: int, till: int, departure: int, env: Env<L>,
                      seconds: int, when: int, here: Run<L>)
    requires offset <= till
    requires seconds == SecondsField(offset) && when == departure + seconds
    requires here == ScoreRoutes(env.directions(when), seconds, env)
    requires Then(acc, ScoreWindow(offset, till, departure, env)) == whole
    requires next == Then(acc, Then(Run([], [DirectionsCall(when)], false), here))
    ensures Then(next, ScoreWindow(offset + SecondsPerHour, till, departure, env)) == whole
    ensures next.failed ==> next == whole
  {
    ThenAssociative(acc, ScoreOffset(departure, offset, env), ScoreWindow(offset + SecondsPerHour, till, departure, env));
  }

  /** The `while time_offset <= till` loop, `till` in total seconds. */
  method ScoreOffsets<L>(till: int, departure: int, env: Env<L>) returns (run: Run<L>)
    ensures run == ScoreWindow(0, till, departure, env)
  {
    ghost var whole := ScoreWindow(0, till, departure, env);
    var acc: Run<L> := Idle();
    var offset := 0;
    ThenIdle(whole);
    while offset <= till
      invariant !acc.failed
      invariant Then(acc, ScoreWindow(offset, till, departure, env)) == whole
      decreases till - offset
    {
      var seconds := SecondsField(offset);
      var when := departure + seconds;
      var here := ScoreAlternatives(env.directions(when), seconds, env);
      var next := Then(acc, Then(Run([], [DirectionsCall(when)], false), here));
      WindowStep(acc, next, whole, offset, till, departure, env, seconds, when, here);
      if next.failed {
        return next;
      }
      acc := next;
      offset := offset + SecondsPerHour;
    }
    ThenIdle(acc);
    run := acc;
  }

  /** `get_routes`. */
  method GetRoutes<L>(req: Request, env: Env<L>) returns (out: Outcome<L>, calls: seq<Call>)
    ensures (out, calls) == Serve(req, env)
    ensures ValidateTill(req.till).Failure? ==> out == BadRequest(Rejection(400, TillMessage)) && calls == []
  {
    var valid := ValidateTill(req.till);
    if valid.Failure? {
      return BadRequest(valid.error), [];
    }
    var delta := HoursDelta(valid.value);
    if delta.None? {
      return ServerError(DeltaOverflow), [];
    }
    var run := ScoreOffsets(delta.value, req.departure, env);
    calls := run.calls;
    if run.failed {
      out := ServerError(ZeroWalkingDistance);
    } else {
      out := Ok(Response(req.departure, req.travelMode, req.origin, req.destination, run.records));
    }
  }
}

=== FILE: window.dfy ===
/**
 * The departure window of `get_routes`: the `till` request argument goes
 * through Python's `int()`, must be `< 24`, becomes `timedelta(hours=till)`,
 * and bounds a loop over hourly offsets read back through `timedelta.seconds`.
 */
module Window {
  import opened Wrappers

  const SecondsPerHour: int := 3600
  const SecondsPerDay: int := 86400
  /** The largest day count a Python `timedelta` can hold, in magnitude. */
  const MaxDeltaDays: int := 999999999

  // ---------------------------------------------------------------------
  // Python's int() on a string, base 10, ASCII subset

  /** The ASCII characters `int()` skips around a number: tab, line feed,
      vertical tab, form feed, carriage return and the space. The separators
      0x1C..0x1F, although `str.isspace` accepts them, are not skipped. */
  predicate IsSpace(c: char)
  {
    9 <= c as int <= 13 || c == ' '
  }

  predicate IsDigit(c: char)
  {
    '0' <= c <= '9'
  }

  function StripLeading(s: string): (t: string)
    ensures |t| <= |s| && t == s[|s| - |t|..]
    ensures |t| > 0 ==> !IsSpace(t[0])
  {
    if |s| > 0 && IsSpace(s[0]) then StripLeading(s[1..]) else s
  }

  function StripTrailing(s: string): (t: string)
    ensures |t| <= |s| && t == s[..|t|]
    ensures |t| > 0 ==> !IsSpace(t[|t| - 1])
  {
    if |s| > 0 && IsSpace(s[|s| - 1]) then StripTrailing(s[..|s| - 1]) else s
  }

  /** Surrounding whitespace removed, as `int()` does before parsing. */
  function Strip(s: string): string
  {
    StripTrailing(StripLeading(s))
  }

  /** A digit run in which single underscores may separate digits:
      `1_000` is accepted, `_1`, `1_` and `1__0` are not. */
  predicate WellFormedDigits(s: string)
  {
    && |s| > 0
    && IsDigit(s[0])
    && IsDigit(s[|s| - 1])
    && (forall i :: 0 <= i < |s| ==> IsDigit(s[i]) || s[i] == '_')
    && (forall i :: 0 <= i < |s| - 1 ==> IsDigit(s[i]) || IsDigit(s[i + 1]))
  }

  /** The decimal value of a digit run, underscores ignored. */
  function DigitsValue(s: string): nat
  {
    if |s| == 0 then 0
    else if IsDigit(s[|s| - 1]) then DigitsValue(s[..|s| - 1]) * 10 + (s[|s| - 1] as int - '0' as int)
    else DigitsValue(s[..|s| - 1])
  }

  /** `int(s)`: `None` where Python raises `ValueError`. Accepted text
      holds a digit, starts with whitespace, a sign or a digit, and ends with
      whitespace or a digit. */
  function ParseInt(s: string): (r: Option<int>)
    ensures r.Some? ==> exists i :: 0 <= i < |s| && IsDigit(s[i])
    ensures r.Some? ==> |s| > 0 && (IsSpace(s[0]) || IsDigit(s[0]) || s[0] == '+' || s[0] == '-')
    ensures r.Some? ==> |s| > 0 && (IsSpace(s[|s| - 1]) || IsDigit(s[|s| - 1]))
  {
    AcceptedHasDigit(s);
    AcceptedStart(s);
    AcceptedEnd(s);
    ParseSigned(Strip(s))
  }

  /** Stripping keeps the first character unless it is whitespace. */
  lemma AcceptedStart(s: string)
    ensures ParseSigned(Strip(s)).Some? ==>
      |s| > 0 && (IsSpace(s[0]) || IsDigit(s[0]) || s[0] == '+' || s[0] == '-')
  {
    var u := StripLeading(s);
    var t := StripTrailing(u);
    assert Strip(s) == t;
    if ParseSigned(t).Some? {
      SignedEnds(t);
      if !IsSpace(s[0]) {
        LeadingStops(s);
        assert t[0] == u[0];
      }
    }
  }

  /** Stripping the front keeps the last character of a non-empty result. */
  lemma LeadingKeepsLast(s: string)
    requires |StripLeading(s)| > 0
    ensures StripLeading(s)[|StripLeading(s)| - 1] == s[|s| - 1]
  {
  }

  /** Stripping keeps the last character unless it is whitespace. */
  lemma StripKeepsLast(s: string)
    requires |Strip(s)| > 0
    ensures |s| > 0 && (IsSpace(s[|s| - 1]) || Strip(s)[|Strip(s)| - 1] == s[|s| - 1])
  {
    var u := StripLeading(s);
    assert |Strip(s)| <= |u|;
    LeadingKeepsLast(s);
    if !IsSpace(u[|u| - 1]) {
      TrailingStops(u);
    }
  }

  /** Accepted text ends with whitespace or a digit. */
  lemma AcceptedEnd(s: string)
    ensures ParseSigned(Strip(s)).Some? ==> |s| > 0 && (IsSpace(s[|s| - 1]) || IsDigit(s[|s| - 1]))
  {
    if ParseSigned(Strip(s)).Some? {
      SignedEnds(Strip(s));
      StripKeepsLast(s);
    }
  }

  /** Accepted stripped text starts with a sign or a digit and ends with a digit. */
  lemma SignedEnds(t: string)
    requires ParseSigned(t).Some?
    ensures |t| > 0 && (IsDigit(t[0]) || t[0] == '+' || t[0] == '-') && IsDigit(t[|t| - 1])
  {
    if t[0] == '-' || t[0] == '+' {
      assert t[1..][|t| - 2] == t[|t| - 1];
    }
  }

  /** Accepted text holds a digit. */
  lemma SignedHasDigit(t: string) returns (i: nat)
    requires ParseSigned(t).Some?
    ensures i < |t| && IsDigit(t[i])
  {
    if |t| > 0 && (t[0] == '-' || t[0] == '+') {
      assert IsDigit(t[1..][0]);
      i := 1;
    } else {
      i := 0;
    }
  }

  /** A digit of the stripped text is a digit of the raw text. */
  lemma AcceptedHasDigit(s: string)
    ensures ParseSigned(Strip(s)).Some? ==> exists i :: 0 <= i < |s| && IsDigit(s[i])
  {
    var u := StripLeading(s);
    var t := StripTrailing(u);
    assert Strip(s) == t;
    if ParseSigned(t).Some? {
      var j := SignedHasDigit(t);
      assert t[j] == u[j];
      assert u[j] == s[|s| - |u| + j];
    }
  }

  /** The text left once whitespace is stripped: an optional sign, then digits. */
  function ParseSigned(t: string): (r: Option<int>)
  {
    if |t| > 0 && (t[0] == '-' || t[0] == '+') then
      if WellFormedDigits(t[1..]) then
        var v: int := DigitsValue(t[1..]);
        Some(if t[0] == '-' then -v else v)
      else None
    else if WellFormedDigits(t) then Some(DigitsValue(t))
    else None
  }

  function DigitChar(d: nat): char
    requires d < 10
  {
    ('0' as int + d) as char
  }

  /** `str(n)` for a natural number. */
  function FormatNat(n: nat): (s: string)
  {
    if n < 10 then [DigitChar(n)] else FormatNat(n / 10) + [DigitChar(n % 10)]
  }

  /** `str(n)`. */
  function FormatInt(n: int): string
  {
    if n < 0 then "-" + FormatNat(-n) else FormatNat(n)
  }

  lemma {:induction false} FormatNatDigits(n: nat)
    ensures |FormatNat(n)| > 0
    ensures forall i :: 0 <= i < |FormatNat(n)| ==> IsDigit(FormatNat(n)[i])
  {
    if n >= 10 {
      FormatNatDigits(n / 10);
    }
  }

  lemma {:induction false} FormatNatValue(n: nat)
    ensures DigitsValue(FormatNat(n)) == n
  {
    if n >= 10 {
      var s := FormatNat(n);
      assert s[..|s| - 1] == FormatNat(n / 10);
      FormatNatValue(n / 10);
    }
  }

  lemma NoSpaceUnchanged(s: string)
    requires |s| > 0 && !IsSpace(s[0]) && !IsSpace(s[|s| - 1])
    ensures Strip(s) == s
  {
  }

  lemma FormatNatWellFormed(n: nat)
    ensures WellFormedDigits(FormatNat(n))
    ensures DigitsValue(FormatNat(n)) == n
  {
    FormatNatDigits(n);
    FormatNatValue(n);
  }

  lemma UnsignedParses(n: nat)
    ensures ParseSigned(FormatNat(n)) == Some(n)
  {
    FormatNatWellFormed(n);
    FormatNatDigits(n);
  }

  lemma NegativeParses(n: nat)
    ensures ParseSigned("-" + FormatNat(n)) == Some(-(n as int))
  {
    var t := "-" + FormatNat(n);
    assert t[1..] == FormatNat(n);
    FormatNatWellFormed(n);
  }

  lemma FormatIntStripped(n: int)
    ensures Strip(FormatInt(n)) == FormatInt(n)
  {
    var s := FormatInt(n);
    var digits := FormatNat(if n < 0 then -n else n);
    FormatNatDigits(if n < 0 then -n else n);
    assert s[|s| - 1] == digits[|digits| - 1];
    NoSpaceUnchanged(s);
  }

  /** `int(str(n)) == n`: every integer is accepted in its own decimal form. */
  lemma ParseFormatRoundTrip(n: int)
    ensures ParseInt(FormatInt(n)) == Some(n)
  {
    FormatIntStripped(n);
    if n < 0 {
      NegativeParses(-n);
    } else {
      UnsignedParses(n);
    }
  }

  /** Nothing but whitespace `int()` skips. */
  predicate AllSpace(s: string)
  {
    forall i :: 0 <= i < |s| ==> IsSpace(s[i])
  }

  predicate AllDigits(s: string)
  {
    forall i :: 0 <= i < |s| ==> IsDigit(s[i])
  }

  function Zeros(k: nat): (z: string)
    ensures |z| == k && AllDigits(z)
  {
    seq(k, _ => '0')
  }

  /** Stripping the front drops exactly the leading run of whitespace. */
  lemma {:induction false} LeadingDrops(s: string, k: nat)
    requires k < |s| && !IsSpace(s[k])
    requires forall i :: 0 <= i < k ==> IsSpace(s[i])
    ensures StripLeading(s) == s[k..]
  {
    if k == 0 {
      LeadingStops(s);
    } else {
      assert IsSpace(s[0]);
      LeadingSkipsSpace(s);
      assert s[1..][k - 1..] == s[k..];
      LeadingDrops(s[1..], k - 1);
    }
  }

  lemma LeadingSpaces(pre: string, body: string)
    requires AllSpace(pre) && |body| > 0 && !IsSpace(body[0])
    ensures StripLeading(pre + body) == body
  {
    var s := pre + body;
    assert s[|pre|] == body[0];
    assert s[|pre|..] == body;
    assert forall i :: 0 <= i < |pre| ==> s[i] == pre[i];
    LeadingDrops(s, |pre|);
  }

  lemma {:induction false} TrailingSpaces(body: string, post: string)
    requires AllSpace(post) && |body| > 0 && !IsSpace(body[|body| - 1])
    ensures StripTrailing(body + post) == body
  {
    if |post| == 0 {
      assert body + post == body;
      TrailingStops(body);
    } else {
      var s := body + post;
      assert IsSpace(s[|s| - 1]);
      assert s[..|s| - 1] == body + post[..|post| - 1];
      TrailingSpaces(body, post[..|post| - 1]);
    }
  }

  /** Whitespace on either side of a number is removed, and nothing else. */
  lemma StripPadded(pre: string, body: string, post: string)
    requires AllSpace(pre) && AllSpace(post)
    requires |body| > 0 && !IsSpace(body[0]) && !IsSpace(body[|body| - 1])
    ensures Strip(pre + body + post) == body
  {
    assert pre + body + post == pre + (body + post);
    LeadingSpaces(pre, body + post);
    TrailingSpaces(body, post);
  }

  lemma {:induction false} LeadingZeroValue(s: string)
    ensures DigitsValue("0" + s) == DigitsValue(s)
  {
    if |s| > 0 {
      var t := "0" + s;
      assert t[|t| - 1] == s[|s| - 1];
      assert t[..|t| - 1] == "0" + s[..|s| - 1];
      LeadingZeroValue(s[..|s| - 1]);
    }
  }

  /** Leading zeros do not change the value of a digit run. */
  lemma {:induction false} ZerosValue(k: nat, s: string)
    ensures DigitsValue(Zeros(k) + s) == DigitsValue(s)
  {
    if k == 0 {
      assert Zeros(k) + s == s;
    } else {
      assert Zeros(k) == "0" + Zeros(k - 1);
      assert Zeros(k) + s == "0" + (Zeros(k - 1) + s);
      LeadingZeroValue(Zeros(k - 1) + s);
      ZerosValue(k - 1, s);
    }
  }

  /** Zeros followed by the decimal form of n: a digit run of value n. */
  lemma ZeroLedDigits(k: nat, n: nat)
    ensures WellFormedDigits(Zeros(k) + FormatNat(n))
    ensures DigitsValue(Zeros(k) + FormatNat(n)) == n
  {
    var d := Zeros(k) + FormatNat(n);
    FormatNatDigits(n);
    assert AllDigits(d);
    ZerosValue(k, FormatNat(n));
    FormatNatValue(n);
  }

  lemma UnsignedOf(d: string)
    requires WellFormedDigits(d)
    ensures ParseSigned(d) == Some(DigitsValue(d))
  {
    assert IsDigit(d[0]);
  }

  lemma SignOf(c: char, d: string)
    requires c == '+' || c == '-'
    requires WellFormedDigits(d)
    ensures ParseSigned([c] + d) == Some(if c == '-' then -(DigitsValue(d) as int) else DigitsValue(d))
  {
    var t := [c] + d;
    assert t[0] == c;
    assert t[1..] == d;
  }

  /** An optional sign before a well-formed digit run gives its signed value. */
  lemma SignedOf(sign: string, d: string)
    requires sign == "" || sign == "+" || sign == "-"
    requires WellFormedDigits(d)
    ensures ParseSigned(sign + d) == Some(if sign == "-" then -(DigitsValue(d) as int) else DigitsValue(d))
  {
    if sign == "" {
      assert sign + d == d;
      UnsignedOf(d);
    } else {
      assert sign == [sign[0]];
      SignOf(sign[0], d);
    }
  }

  /** A sign or a digit run first, a digit last: nothing `int()` would strip. */
  lemma SignedBodyEnds(sign: string, d: string)
    requires sign == "" || sign == "+" || sign == "-"
    requires WellFormedDigits(d)
    ensures |sign + d| > 0 && !IsSpace((sign + d)[0]) && !IsSpace((sign + d)[|sign + d| - 1])
  {
    var body := sign + d;
    assert body[|body| - 1] == d[|d| - 1];
    if sign == "" {
      assert body[0] == d[0];
    } else {
      assert body[0] == sign[0];
    }
  }

  /** The unpadded text: a sign or a digit first, a digit last, and the value. */
  lemma SignedZeroLed(sign: string, zeros: nat, n: nat)
    requires sign == "" || sign == "+" || sign == "-"
    ensures var body := sign + (Zeros(zeros) + FormatNat(n));
      && |body| > 0 && !IsSpace(body[0]) && !IsSpace(body[|body| - 1])
      && ParseSigned(body) == Some(if sign == "-" then -(n as int) else n)
  {
    var d := Zeros(zeros) + FormatNat(n);
    ZeroLedDigits(zeros, n);
    assert DigitsValue(d) == n;
    SignedOf(sign, d);
    assert ParseSigned(sign + d) == Some(if sign == "-" then -(n as int) else n);
    SignedBodyEnds(sign, d);
  }

  /** Every text made of whitespace, an optional sign, any number of leading
      zeros, the decimal digits of n and whitespace is accepted as plus or
      minus n: the value `int()` gives for every input without underscores. */
  lemma PaddedSignedDecimal(pre: string, sign: string, zeros: nat, n: nat, post: string)
    requires AllSpace(pre) && AllSpace(post)
    requires sign == "" || sign == "+" || sign == "-"
    ensures ParseInt(pre + sign + Zeros(zeros) + FormatNat(n) + post)
         == Some(if sign == "-" then -(n as int) else n)
  {
    var z, f := Zeros(zeros), FormatNat(n);
    var body := sign + (z + f);
    SignedZeroLed(sign, zeros, n);
    Regroup(pre, sign, z, f, post);
    StripPadded(pre, body, post);
    ParseIntStripped(pre + body + post);
  }

  lemma Regroup(a: string, b: string, c: string, d: string, e: string)
    ensures a + b + c + d + e == a + (b + (c + d)) + e
  {
  }

  lemma ParseIntStripped(s: string)
    ensures ParseInt(s) == ParseSigned(Strip(s))
  {
  }

  // ---------------------------------------------------------------------
  // The till check

  /** The `till` request argument: absent (the default 0) or the raw string. */
  datatype TillArg = Absent | Given(raw: string)

  /** The error response: an HTTP status and its body. */
  datatype Rejection = Rejection(status: int, message: string)

  const TillMessage: string := "Till should by integer between 1 and 24"

  /** The `try`/`assert till < 24` block: the window in hours, or the 400. */
  function ValidateTill(arg: TillArg): (r: Result<int, Rejection>)
    ensures r.Success? ==> r.value < 24
    ensures r.Failure? ==> r.error == Rejection(400, TillMessage)
  {
    match arg
    case Absent => Success(0)
    case Given(raw) =>
      var p := ParseInt(raw);
      if p.Some? && p.value < 24 then Success(p.value) else Failure(Rejection(400, TillMessage))
  }

  /** A decimal `till` is accepted exactly when it is below 24, whatever its
      sign, and is then the window itself. */
  lemma TillAcceptsBelow24(n: int)
    ensures ValidateTill(Given(FormatInt(n))).Success? <==> n < 24
    ensures n < 24 ==> ValidateTill(Given(FormatInt(n))) == Success(n)
  {
    ParseFormatRoundTrip(n);
  }

  /** A string with no digit at all is always rejected. */
  lemma TillRejectsDigitless(raw: string)
    requires forall i :: 0 <= i < |raw| ==> !IsDigit(raw[i])
    ensures ValidateTill(Given(raw)) == Failure(Rejection(400, TillMessage))
  {
  }

  lemma FormatExamples()
    ensures FormatInt(24) == "24"
    ensures FormatInt(0) == "0"
    ensures FormatInt(-5) == "-5"
  {
    assert FormatNat(2) == "2";
  }

  lemma LeadingSkipsSpace(s: string)
    requires |s| > 0 && IsSpace(s[0])
    ensures StripLeading(s) == StripLeading(s[1..])
  {
  }

  lemma LeadingStops(s: string)
    requires |s| > 0 && !IsSpace(s[0])
    ensures StripLeading(s) == s
  {
  }

  lemma TrailingStops(s: string)
    requires |s| > 0 && !IsSpace(s[|s| - 1])
    ensures StripTrailing(s) == s
  {
  }

  lemma LeadingExample()
    ensures StripLeading(" 2_3 ") == "2_3 "
  {
    LeadingSkipsSpace(" 2_3 ");
    assert " 2_3 "[1..] == "2_3 ";
    LeadingStops("2_3 ");
  }

  lemma TrailingExample()
    ensures StripTrailing("2_3 ") == "2_3"
  {
    assert "2_3 "[3] == ' ' && "2_3 "[..3] == "2_3";
    TrailingStops("2_3");
  }

  lemma StripExample()
    ensures Strip(" 2_3 ") == "2_3"
  {
    LeadingExample();
    TrailingExample();
  }

  lemma UnderscoreExample()
    ensures ParseSigned("2_3") == Some(23)
  {
    assert "2_3"[..2] == "2_";
    assert "2_"[..1] == "2";
    assert "2"[..0] == "";
  }

  /** Worked case: "24" is rejected, the first value the bound excludes. */
  lemma TillRejects24()
    ensures ValidateTill(Given("24")) == Failure(Rejection(400, TillMessage))
  {
    FormatExamples();
    TillAcceptsBelow24(24);
  }

  lemma AbcStripped()
    ensures Strip("abc") == "abc"
  {
    assert "abc"[0] == 'a' && "abc"[2] == 'c';
    NoSpaceUnchanged("abc");
  }

  lemma AbcNotDigits()
    ensures !WellFormedDigits("abc")
  {
    assert "abc"[0] == 'a';
  }

  lemma AbcSignedNone()
    ensures ParseSigned("abc") == None
  {
    AbcNotDigits();
    assert "abc"[0] == 'a';
  }

  /** `"abc"` has no surrounding whitespace, no sign and is not a digit run. */
  lemma AbcIsNoNumber()
    ensures ParseInt("abc") == None
  {
    AbcStripped();
    AbcSignedNone();
  }

  /** Worked case: "abc" is rejected. */
  lemma TillRejectsAbc()
    ensures ValidateTill(Given("abc")) == Failure(Rejection(400, TillMessage))
  {
    AbcIsNoNumber();
  }

  /** Worked cases: absent, "0" and "-5" are accepted, although the message
      speaks of 1 to 24. */
  lemma TillAcceptsNonPositive()
    ensures ValidateTill(Absent) == Success(0)
    ensures ValidateTill(Given("0")) == Success(0)
    ensures ValidateTill(Given("-5")) == Success(-5)
  {
    FormatExamples();
    TillAcceptsBelow24(0);
    TillAcceptsBelow24(-5);
  }

  /** Worked case: surrounding whitespace and a digit-separating underscore
      are accepted, as `int()` accepts them. */
  lemma PaddedParses()
    ensures ParseInt(" 2_3 ") == Some(23)
  {
    StripExample();
    UnderscoreExample();
  }

  lemma TillAcceptsPadded()
    ensures ValidateTill(Given(" 2_3 ")) == Success(23)
  {
    PaddedParses();
  }

  /** Worked case: the file separator 0x1C is not whitespace to `int()`,
      so `"\U{1C}5"` is rejected although `str.isspace` is true of 0x1C. */
  lemma TillRejectsSeparator()
    ensures ParseInt("\U{1C}5") == None
    ensures ValidateTill(Given("\U{1C}5")) == Failure(Rejection(400, TillMessage))
  {
    SeparatorStripped();
    SeparatorSignedNone();
  }

  lemma SeparatorStripped()
    ensures Strip("\U{1C}5") == "\U{1C}5"
  {
    assert "\U{1C}5"[0] == '\U{1C}' && "\U{1C}5"[1] == '5';
    NoSpaceUnchanged("\U{1C}5");
  }

  lemma SeparatorSignedNone()
    ensures ParseSigned("\U{1C}5") == None
  {
    assert "\U{1C}5"[0] == '\U{1C}';
    assert !WellFormedDigits("\U{1C}5");
  }

  /** A `till` of whitespace, an optional sign, leading zeros, decimal digits
      and whitespace is accepted exactly when its value is below 24, and is
      then that value. */
  lemma TillPaddedDecimal(pre: string, sign: string, zeros: nat, n: nat, post: string)
    requires AllSpace(pre) && AllSpace(post)
    requires sign == "" || sign == "+" || sign == "-"
    ensures var v := if sign == "-" then -(n as int) else n;
      ValidateTill(Given(pre + sign + Zeros(zeros) + FormatNat(n) + post))
        == if v < 24 then Success(v) else Failure(Rejection(400, TillMessage))
  {
    PaddedSignedDecimal(pre, sign, zeros, n, post);
  }

  /** Worked case: tab and line feed around the number are skipped. */
  lemma TillAcceptsTabNewline()
    ensures ValidateTill(Given("\t5\n")) == Success(5)
  {
    assert "\t5\n" == "\t" + "" + Zeros(0) + FormatNat(5) + "\n";
    TillPaddedDecimal("\t", "", 0, 5, "\n");
  }

  /** Worked case: an explicit plus sign is accepted. */
  lemma TillAcceptsPlus()
    ensures ValidateTill(Given("+5")) == Success(5)
  {
    assert FormatNat(5) == "5" && Zeros(0) == "";
    assert "+5" == "" + "+" + Zeros(0) + FormatNat(5) + "";
    TillPaddedDecimal("", "+", 0, 5, "");
  }

  /** Worked case: a leading zero is accepted, as base-10 `int()` allows. */
  lemma TillAcceptsLeadingZero()
    ensures ValidateTill(Given("05")) == Success(5)
  {
    assert FormatNat(5) == "5" && Zeros(1) == "0";
    assert "05" == "" + "" + Zeros(1) + FormatNat(5) + "";
    TillPaddedDecimal("", "", 1, 5, "");
  }

  // ---------------------------------------------------------------------
  // timedelta arithmetic

  /** `timedelta(hours=h)` as a total number of seconds, or `None` where
      Python raises `OverflowError` because the normalised day count is out
      of range. */
  function HoursDelta(h: int): (r: Option<int>)
    ensures r.Some? ==> r.value == h * SecondsPerHour
    ensures r.None? <==> h < -MaxDeltaDays * 24 || h >= (MaxDeltaDays + 1) * 24
  {
    var total := h * SecondsPerHour;
    var days := total / SecondsPerDay;
    if -MaxDeltaDays <= days <= MaxDeltaDays then Some(total) else None
  }

  /** `timedelta.seconds`: the seconds part of the normalised delta, in
      `[0, 86400)`; Dafny's `%` agrees with Python's for a positive divisor. */
  function SecondsField(total: int): (s: int)
    ensures 0 <= s < SecondsPerDay
    ensures 0 <= total < SecondsPerDay ==> s == total
  {
    total % SecondsPerDay
  }
}

=== FILE: wrappers.dfy ===
/** Failure-carrying values shared by the other modules. */
module Wrappers {

  /** A value that may be absent, e.g. the result of parsing a request argument. */
  datatype Option<+T> = None | Some(value: T)

  /** Either a computed value or the error that replaced it. */
  datatype Result<+R, +E> = Success(value: R) | Failure(error: E)
}
